=== FILE: README.md ===
# Community-garden backend: a Dafny model of its domain rules

The Horta Comunitária backend is a REST service over a relational store. It
manages users and their groups, products, plots, events, event
participations, cultivations (one product sown in one plot on one date) and
harvests. This project models the rule layer of that service. The store is
one immutable value: a record of maps, one per table, keyed by the table's
primary key. Each HTTP handler becomes a pure function from a store and a
request to `Result<Reply<T>>`. The reply holds the new store and the response
body. The error is one of `NotFound`, `Duplicate`, `InvalidCredentials`,
`Unauthorized`, `Forbidden` or `ConstraintViolation`. An error carries no
store, so a refused request changes nothing. The program has two
exceptions, where a null is committed before the response fails validation
with a 500. One is an explicit null cultivation status (second row of
"## Findings"). The other is an explicit null name, email or group in a
user update (main.py:127-132): the columns are nullable (models.py:16-18),
but the user output requires those fields (schemas.py:6-10, 22-25).

Modules, following the source's files:

- `Outcome`: `Option`, `Error` and `Result`.
- `Models`: one datatype per table of `models.py`, except the gardens table
  `hortas` (models.py:28-34), which no modelled handler touches. The `Enum` columns
  (product kind, plot status, participation role) are datatypes, with
  `Parse*`/`*Name` pairs for their literals.
- `Schemas`: the request and response shapes of `schemas.py`. This covers
  the four-literal cultivation status, the all-optional user update, and the
  user output without a password.
- `Store`: the store, the email lookup, and the integrity conditions `Valid`.
  `Valid` holds when rows sit under their own keys, emails are unique,
  cultivation statuses are valid literals, foreign keys point at existing
  rows, and the harvest counter is fresh.
- `Auth`: subject extraction from a decoded token, caller resolution, the
  group allow-list gate, and login's token claims.
- `Users`, `Participations`, `Cultivations`, `Harvests`: the handlers of
  `main.py` for those tables.
- `Integrity`: the mutating handlers as one `Step`, proved to keep `Valid`.
  `Step` uses the corrected user update and the cultivation update without an
  explicit null status (see "## Findings"). Given the input its finding
  names, the user update as written breaks the email part of `Valid`, and
  the cultivation update as written breaks the status part.

Some behaviour comes from the database rather than from handler code. The
foreign keys declared in `models.py` are enforced by the database at commit,
and the model shows each such rejection as `ConstraintViolation`. This
happens in three places:

- deleting a user who still has participations;
- creating or updating a user with a group that does not exist;
- editing a harvest to name a product or plot that does not exist.

That handler, unlike the harvest create handler, does not check existence
itself.

The group gate `exigir_grupo` is defined in `main.py`, but no route there
applies it. It is modelled as a standalone function.

Cultivation statuses are stored as strings, because the column is a plain
`String(50)`. Requests carry the `CultivationStatus` datatype. The invariant
`StatusesValid` says that every stored string is one of the four request
literals.

## Model

| member | source | states |
|---|---|---|
| `Models.ParseKind` | models.py:41 | a product kind is accepted exactly when it is one of Verdura, Legume, Fruta, Hortaliça, and the accepted value writes back as the same literal |
| `Models.ParsePlotStatus` | models.py:51 | a plot status is accepted exactly when it is one of Livre, Cultivando, Em Repouso, and writes back as the same literal |
| `Models.ParseRole` | models.py:66 | a participation role is accepted exactly when it is one of Participante, Organizador, Palestrante, and writes back as the same literal |
| `Models.EnumerationsRoundTrip` | models.py:41-66 | every kind, plot status and role survives being written as its column literal and read back |
| `Models.NewPlot` | models.py:51 | a plot inserted without a status gets Livre; with one, it keeps the given status |
| `Models.NewPlotStatusLiteral` | models.py:51 | leaving the status out of a plot insert gives the same row as sending "Livre", and a status sent as one of the literals is stored as that literal |
| `Schemas.StatusName` | schemas.py:124 | the stored literal of a request status is always one of the four cultivation literals, and it is "Colhido" exactly for Colhido |
| `Schemas.ParseStatus` | schemas.py:124-127 | request validation accepts exactly the four status literals, and inverts `StatusName` |
| `Schemas.StatusRoundTrip` | schemas.py:124 | parsing the stored literal of a status gives that status back |
| `Schemas.HarvestedIsAStatus` | schemas.py:124 | the literal the harvest handlers write is itself one of the four valid statuses |
| `Schemas.UserOutHidesPassword` | schemas.py:22-25 | the public view of a user does not depend on the stored password, so no user response can expose it |
| `Store.FindByEmail` | main.py:86-88 | the email lookup finds nothing exactly when no user holds the email; otherwise it returns a stored user with that email |
| `Auth.DecodeTokenEmail` | main.py:67-72 | a subject is extracted exactly when the token was accepted and carries one, and it is that subject |
| `Auth.IssueClaims` | auth.py:21-25 | issued claims decode back to the same email and expire sixty minutes after issuance |
| `Auth.ResolveCaller` | main.py:74-90 | Unauthorized exactly when the token yields no subject or an empty one; NotFound exactly when no user has the subject's email; otherwise a stored user whose email is the subject |
| `Auth.ResolveCallerIsDetermined` | main.py:86-90 | with unique emails, the resolved caller is the one user holding the subject's email |
| `Auth.RequireGroup` | main.py:92-97 | the gate admits a resolved caller exactly when its group is in the allowed set; it refuses every other resolved caller with Forbidden and passes resolution errors through |
| `Auth.RequireGroupOfUser` | main.py:82-97 | with unique emails, a token naming a stored user's email passes the gate as that user when its group is allowed, and is refused with Forbidden otherwise |
| `Auth.Login` | main.py:57-64 | fails with InvalidCredentials unless some user with that email verifies the password against its stored hash; the issued claims name that email and expire after sixty minutes |
| `Auth.LoginSucceedsIff` | main.py:59-61 | with unique emails, login succeeds exactly when the password verifies against that user's stored hash |
| `Auth.LoginThenResolve` | main.py:62-64 | a token issued at login resolves to a user with the login email; a token for an empty email is always refused as Unauthorized |
| `Users.CreateUser` | main.py:104-120 | Duplicate when the email is taken; ConstraintViolation for an unknown group; otherwise exactly one user is added under the new id, carrying that id, with the hash of the chosen password stored; every other user and table is unchanged |
| `Users.ApplyUserUpdate` | main.py:127-131 | only the supplied fields change; a supplied password is stored hashed; the id never changes |
| `Users.EmptyUpdateIsNoOp` | schemas.py:15-20 | an update that supplies no field leaves the user row unchanged |
| `Users.DisjointUpdatesCommute` | main.py:127-131 | two partial updates that supply disjoint fields can be applied in either order |
| `Users.UpdateUserAsWritten` | main.py:122-135 | the handler as written: NotFound for an unknown id; ConstraintViolation for an unknown supplied group; otherwise only that user's row changes, to the partial update of it |
| `Users.UpdateUserAsWrittenDuplicatesEmail` | main.py:124-131 | from a store with unique emails, the handler as written accepts moving one user onto another's email, which leaves two users with the same email |
| `Users.UpdateUser` | main.py:122-135 | NotFound for an unknown id; Duplicate when the new email belongs to another user; ConstraintViolation for an unknown group; otherwise only that user's supplied fields change, and emails stay unique |
| `Users.DeleteUser` | main.py:137-145 | NotFound for an unknown id; ConstraintViolation while a participation refers to the user; otherwise exactly that user is removed and nothing else changes |
| `Participations.CreateParticipation` | main.py:354-366 | NotFound unless both user and event exist; Duplicate when the pair already has a role; otherwise exactly that pair is added with the given role and the other participations are unchanged |
| `Participations.SecondParticipationIsDuplicate` | main.py:360-361 | after a successful enrolment, enrolling the same (user, event) pair again with any role fails with Duplicate |
| `Participations.RemoveParticipation` | main.py:368-376 | NotFound when the pair has no participation; otherwise exactly that pair is removed |
| `Cultivations.CreateCultivation` | main.py:381-412 | NotFound unless both product and plot exist; Duplicate when the (product, plot, date) triple exists; otherwise exactly that triple is added with the requested status's literal, and every other cultivation is unchanged |
| `Cultivations.SecondCultivationIsDuplicate` | main.py:389-395 | after a successful planting, planting the same triple again with any status fails with Duplicate |
| `Cultivations.UpdateCultivation` | main.py:428-455 | NotFound for an unknown triple; a supplied status replaces the stored one; without one, the row is unchanged; no other row changes; every stored status stays one of the four literals |
| `Cultivations.UpdateCultivationAsWritten` | main.py:428-441 | the handler as written, on the nullable column: NotFound for an unknown triple; an omitted status leaves the row; an explicit null stores NULL; a given status stores its literal; no other row changes |
| `Cultivations.UpdateCultivationAsWrittenStoresNull` | main.py:438-441 | from a store where every status is a valid literal, the handler as written accepts an explicit null and leaves a NULL status |
| `Cultivations.UpdateCultivationAgreesWithAsWritten` | main.py:438-441 | for every body without an explicit null, `UpdateCultivation` and the handler as written succeed on the same requests and write the same column |
| `Cultivations.EmptyCultivationUpdateIsNoOp` | main.py:438-440 | an update that carries no status leaves the whole store unchanged |
| `Cultivations.RemoveCultivation` | main.py:458-476 | NotFound for an unknown triple; otherwise exactly that row is removed |
| `Harvests.MarkHarvested` | main.py:499-503 | the bulk update keeps the set of cultivations; every cultivation of the (plot, product) pair becomes "Colhido", whatever its date and prior status; every other keeps its status |
| `Harvests.MarkHarvestedRows` | main.py:499-503 | updating the matching rows one at a time ends in the same table as the declarative bulk update |
| `Harvests.MarkHarvestedIdempotent` | main.py:499-503 | marking a pair harvested twice is the same as marking it once |
| `Harvests.MarkHarvestedKeepsStatusesValid` | main.py:503 | propagation keeps every stored status within the four valid literals |
| `Harvests.CreateHarvest` | main.py:483-514 | NotFound unless product and plot exist; otherwise one harvest is added under the next auto-increment id (one more row when that id is fresh), every cultivation of the pair becomes "Colhido", and every other cultivation and table is unchanged |
| `Harvests.UpdateHarvest` | main.py:545-567 | NotFound for an unknown id; ConstraintViolation for an unknown product or plot; otherwise the row takes the request's fields, and the cultivations of the new (plot, product) pair become "Colhido" while all others keep their status |
| `Harvests.UpdateHarvestIdempotent` | main.py:545-567 | re-submitting the same harvest edit leaves the store as the first edit left it |
| `Integrity.StepKeepsStatusesValid` | schemas.py:124-127 | under every request `Step` accepts, every stored cultivation status stays one of the four literals; an explicit-null status is outside `Step` |
| `Integrity.StepPreservesValid` | models.py:62-81 | every request `Step` accepts (with the corrected user update, and without an explicit-null status) keeps rows under their own keys, emails unique, statuses valid, foreign keys resolved and the harvest counter fresh |
| `Integrity.CreateUserPreservesValid` | main.py:106-116 | creating a user keeps the store valid |
| `Integrity.UpdateUserPreservesValid` | main.py:124-131 | the corrected user update keeps the store valid |
| `Integrity.DeleteUserPreservesValid` | main.py:139-143 | deleting a user keeps the store valid |
| `Integrity.CreateParticipationPreservesValid` | main.py:356-364 | enrolling in an event keeps the store valid |
| `Integrity.RemoveParticipationPreservesValid` | main.py:370-374 | removing a participation keeps the store valid |
| `Integrity.CreateCultivationPreservesValid` | main.py:384-404 | planting keeps the store valid |
| `Integrity.UpdateCultivationPreservesValid` | main.py:430-441 | a cultivation update without an explicit null status keeps the store valid |
| `Integrity.RemoveCultivationPreservesValid` | main.py:460-469 | removing a cultivation keeps the store valid |
| `Integrity.CreateHarvestPreservesValid` | main.py:486-505 | recording a harvest keeps the store valid |
| `Integrity.UpdateHarvestPreservesValid` | main.py:547-559 | editing a harvest keeps the store valid |

## Left out

- HTTP routing, dependency injection, CORS, status-code plumbing and table creation: HTTP outcomes appear only as `Error` (`Outcome.StatusCode` gives the code each becomes).
- The audit log writes of `mongo_logs.py`: fire-and-forget I/O whose failures are swallowed, so they never affect a handler's outcome.
- Password hashing and verification are function parameters (`hash`, `verify`). Salting is not modelled, so `hash` is treated as a function of the password alone.
- Token signing, signature checking and expiry checking are not modelled. A token enters as the claim set the JWT library decoded, or `None` when the library rejected it.
- Users.CreateUser: requires the generated id to be new, because a UUID collision is not modelled.
- The current time for token expiry is an input. Harvest ids come from an auto-increment counter kept in the store.
- Floating-point columns (`tamanho`, `quantidade_kg`) are `real` values that are only copied, never computed with.
- Explicit JSON `null` in a user update is not modelled; `None` means that the client left the field out. The handler keeps explicit nulls: a null password would fail in hashing, and other nulls would write NULL into the column. For the cultivation status, the explicit null is modelled by `Cultivations.UpdateCultivationAsWritten` (see "## Findings").
- Store.FindByEmail: the lookup picks some user with the email. The handlers take the first row the database returns, in an unspecified order.
- Every string the database compares is compared exactly in the model: emails, user ids (main.py:139, 356, 360) and enumeration literals. The database's collation may compare case- and accent-insensitively, and that is not modelled.
- Models.ParseKind: the product request carries a plain string (schemas.py:48), and only the `Enum` column (models.py:41) checks it. The column matches the literals under the database's collation and stores the canonical spelling, so it may also accept spellings such as "verdura". The model accepts only the exact literals.
- Models.ParsePlotStatus: the plot request carries a plain string (schemas.py:63), and only the `Enum` column (models.py:51) checks it. The column matches the literals under the database's collation and stores the canonical spelling, so it may also accept spellings such as "livre". The model accepts only the exact literals.
- Column widths such as `String(100)` and the database's rejection of longer values are not modelled.
- Users.UpdateUser and Harvests.UpdateHarvest check a supplied foreign key against the table, even when it equals the stored value. The database checks only changed values. The two differ only in stores that already hold a dangling reference.
- Cultivation key dates arrive as path strings that the database compares with dates; the model takes the key date as a `Date`.
- The response check that a returned cultivation status is one of the literals (schemas.py:124, 129) is not modelled. Under `Valid` it always passes, except after an explicit null. `Cultivations.UpdateCultivationAsWritten` records that update as `Ok` with the committed store, although the client gets a 500.
- Plain create, update, delete and listing handlers of gardens, products, plots, events and groups; harvest lookup and deletion; user listing and the profile endpoint. Apart from group deletion, these are single-row map operations with the same NotFound pattern as `Users.DeleteUser`. Group deletion (main.py:185-193) answers 204 even when users belong to the group. The relationship has no delete cascade (models.py:11), so the ORM first sets those users' group to NULL. The profile endpoint repeats the lookup of `Auth.ResolveCaller`.
- Auth.RequireGroup: a user's group is always a group id in the model. A user without a group, left by group deletion or by a null group in a user update, is refused with 403 by every gate (main.py:94). That state is not modelled.
- Models.NewPlot: the plot handler passes every request field to the insert (main.py:279). An omitted status and an explicit null both reach it as `None`, and both take the `None` case, which gives the column default.
- Integrity.UpdateCultivationPreservesValid: covers `Cultivations.UpdateCultivation`, whose request cannot carry an explicit null status. The handler as written stores NULL for an explicit null and breaks status validity (second row of "## Findings").
- Integrity.StepKeepsStatusesValid: covers the cultivation update without an explicit null status. In the program, an explicit null stores NULL and breaks the invariant (second row of "## Findings").
- Integrity.StepPreservesValid: uses the corrected `Users.UpdateUser` and a cultivation update without an explicit null status. The user update as written breaks email uniqueness, and an explicit null breaks status validity (both rows of "## Findings").
- Requests are modelled one after another. The database runs them concurrently, and `Store.UniqueEmails` holds only for a serial order. There is no unique index on the email column (models.py:18), and user creation checks for the email before it inserts (main.py:106-117). So two concurrent `POST /usuarios` with one email can both commit. Two concurrent identical participations or plantings both pass the existence check. The composite primary key then rejects the second one with a 500, not the modelled `Duplicate` (400).

## Findings

| source | as written | input that shows it | evidently intended | confidence | as-written member | corrected member |
|---|---|---|---|---|---|---|
| main.py:124-131 | the user update writes a supplied email without checking it against the other users, although user creation refuses a taken email (main.py:106-107) and the caller and login lookups assume one user per email | users `a` (ana@x.com) and `b` (bia@x.com); `PUT /usuarios/b` with `{"email": "ana@x.com"}` succeeds, leaving two users with ana@x.com | refuse with 400 as a duplicate email, as creation does | medium, not executed | `Users.UpdateUserAsWrittenDuplicatesEmail` | `Users.UpdateUser` |
| main.py:438-441 | the cultivation update writes every field the body sets, and the schema lets `status_cultivo` be an explicit null (schemas.py:127), so NULL is stored in the nullable column (models.py:73) | one planting with status "Plantado"; `PUT /cultivos/1/1/2024-03-01` with `{"status_cultivo": null}` commits the NULL (main.py:441). The response then fails validation against `CultivoOut`, whose status is a required literal (schemas.py:124, 129), so the client gets a 500 while the NULL stays stored. A later `GET /cultivos` fails the same way (main.py:415-425) | an explicit null is refused, or treated as an omitted field; the status stays one of the four literals that creation allows (schemas.py:124) | low, not executed | `Cultivations.UpdateCultivationAsWrittenStoresNull` | `Cultivations.UpdateCultivation` |

=== FILE: auth.dfy ===
/** The authentication gate: token subject extraction, caller resolution,
    the group allow-list and token issuance at login.

    Signing, signature checking and expiry checking belong to the JWT
    library and are not modelled: a token reaches the model as the claim
    set the library decoded, or `None` when the library rejected it.
    Password verification is likewise a parameter. */
module Auth {
  import opened Outcome
  import opened Models
  import opened Store

  /** The claims of a signed token: the subject and the expiry instant in seconds. */
  datatype Claims = Claims(sub: Option<string>, exp: int)

  /** Tokens are valid for sixty minutes after issuance. */
  const TokenLifetime: int := 60 * 60

  /** The token's subject, or `None` when the token was rejected or has no subject. */
  function DecodeTokenEmail(decoded: Option<Claims>): (email: Option<string>)
    ensures email.Some? <==> decoded.Some? && decoded.value.sub.Some?
    ensures email.Some? ==> email.value == decoded.value.sub.value
  {
    match decoded
    case None => None
    case Some(c) => c.sub
  }

  /** The claims login signs: subject the user's email, expiry one lifetime
      from now. Decoding them gives the email back. */
  function IssueClaims(email: string, now: int): (c: Claims)
    ensures DecodeTokenEmail(Some(c)) == Some(email)
    ensures c.exp - now == TokenLifetime
  {
    Claims(Some(email), now + TokenLifetime)
  }

  /** The logged-in user: Unauthorized when the token yields no subject (a
      missing subject and an empty one alike), NotFound when no user has that
      email, and otherwise a user whose email is the subject. */
  ghost function ResolveCaller(db: State, decoded: Option<Claims>): (r: Result<User>)
    ensures r == Err(Unauthorized) <==> DecodeTokenEmail(decoded) in {None, Some("")}
    ensures r == Err(NotFound) <==>
      DecodeTokenEmail(decoded).Some? && DecodeTokenEmail(decoded).value != "" &&
      !HasEmail(db.users, DecodeTokenEmail(decoded).value)
    ensures r.Err? ==> r.error in {Unauthorized, NotFound}
    ensures r.Ok? ==>
      r.value in db.users.Values && r.value.email != "" &&
      DecodeTokenEmail(decoded) == Some(r.value.email)
  {
    var email := DecodeTokenEmail(decoded);
    if email.None? || email.value == "" then
      Err(Unauthorized)
    else
      match FindByEmail(db.users, email.value)
      case None => Err(NotFound)
      case Some(u) => Ok(u)
  }

  /** With unique emails the caller is determined by the token: the one user
      holding the subject's email. */
  lemma ResolveCallerIsDetermined(db: State, decoded: Option<Claims>, u: User)
    requires UniqueEmails(db.users)
    requires u in db.users.Values && u.email != ""
    requires DecodeTokenEmail(decoded) == Some(u.email)
    ensures ResolveCaller(db, decoded) == Ok(u)
  {
  }

  /** The group allow-list gate: admits exactly the resolved callers whose
      group is allowed, refuses the others with Forbidden, and passes caller
      resolution failures through unchanged. */
  ghost function RequireGroup(db: State, decoded: Option<Claims>, allowed: set<GroupId>): (r: Result<User>)
    ensures r.Ok? <==> ResolveCaller(db, decoded).Ok? && ResolveCaller(db, decoded).value.group in allowed
    ensures r.Ok? ==> r.value == ResolveCaller(db, decoded).value
    ensures ResolveCaller(db, decoded).Ok? && r.Err? ==> r.error == Forbidden
    ensures ResolveCaller(db, decoded).Err? ==> r == ResolveCaller(db, decoded)
  {
    var u :- ResolveCaller(db, decoded);
    if u.group in allowed then Ok(u) else Err(Forbidden)
  }

  /** With unique emails the gate's verdict is a function of the token's user:
      that user when its group is allowed, Forbidden otherwise. */
  lemma RequireGroupOfUser(db: State, decoded: Option<Claims>, allowed: set<GroupId>, u: User)
    requires UniqueEmails(db.users)
    requires u in db.users.Values && u.email != ""
    requires DecodeTokenEmail(decoded) == Some(u.email)
    ensures RequireGroup(db, decoded, allowed) == (if u.group in allowed then Ok(u) else Err(Forbidden))
  {
    ResolveCallerIsDetermined(db, decoded, u);
  }

  /** Login with a user name (the email) and a password. `verify` stands for
      the salted-hash check of a plain password against a stored hash. Fails
      with InvalidCredentials unless a user with that email exists and the
      password verifies against its stored hash; on success the claims name
      that email and expire one lifetime after `now`. */
  ghost function Login(db: State, username: string, password: string,
                       verify: (string, string) -> bool, now: int): (r: Result<Claims>)
    ensures !HasEmail(db.users, username) ==> r == Err(InvalidCredentials)
    ensures r.Err? ==> r.error == InvalidCredentials
    ensures r.Ok? ==>
      (exists id :: id in db.users && db.users[id].email == username && verify(password, db.users[id].password))
    ensures r.Ok? ==> DecodeTokenEmail(Some(r.value)) == Some(username) && r.value.exp - now == TokenLifetime
  {
    match FindByEmail(db.users, username)
    case None => Err(InvalidCredentials)
    case Some(u) =>
      if verify(password, u.password) then Ok(IssueClaims(u.email, now))
      else Err(InvalidCredentials)
  }

  /** With unique emails, login succeeds exactly when the password verifies
      against the stored hash of the user holding that email. */
  lemma LoginSucceedsIff(db: State, u: User, password: string,
                         verify: (string, string) -> bool, now: int)
    requires UniqueEmails(db.users)
    requires u in db.users.Values
    ensures Login(db, u.email, password, verify, now).Ok? <==> verify(password, u.password)
  {
  }

  /** The claims issued at login resolve to a user with the login email; an
      empty email yields claims that are never accepted. */
  lemma LoginThenResolve(db: State, username: string, password: string,
                         verify: (string, string) -> bool, now: int)
    requires Login(db, username, password, verify, now).Ok?
    ensures username != "" ==>
      var caller := ResolveCaller(db, Some(Login(db, username, password, verify, now).value));
      caller.Ok? && caller.value.email == username
    ensures username == "" ==>
      ResolveCaller(db, Some(Login(db, username, password, verify, now).value)) == Err(Unauthorized)
  {
  }
}

=== FILE: cultivations.dfy ===
/** Cultivations: one product sown in one plot on one date, keyed by that
    triple, with a status string. */
module Cultivations {
  import opened Outcome
  import opened Models
  import opened Schemas
  import opened Store

  /** Records a planting. NotFound unless both product and plot exist;
      Duplicate when the (product, plot, date) triple is already recorded;
      otherwise exactly that triple is added, holding the literal of the
      requested status, every other cultivation unchanged, and the request
      is echoed. */
  function CreateCultivation(db: State, req: CultivationCreate): (r: Result<Reply<CultivationCreate>>)
    ensures req.product !in db.products || req.plot !in db.plots ==> r == Err(NotFound)
    ensures (req.product in db.products && req.plot in db.plots &&
             KeyOf(req) in db.cultivations) ==> r == Err(Duplicate)
    ensures r.Ok? <==>
      req.product in db.products && req.plot in db.plots && KeyOf(req) !in db.cultivations
    ensures r.Ok? ==>
      var rows := r.value.state.cultivations;
      && rows.Keys == db.cultivations.Keys + {KeyOf(req)}
      && rows[KeyOf(req)] in CultivationStatuses
      && ParseStatus(rows[KeyOf(req)]) == Some(req.status)
      && (forall k :: k in db.cultivations ==> rows[k] == db.cultivations[k])
      && r.value.state == db.(cultivations := rows)
      && r.value.body == req
  {
    if req.product !in db.products || req.plot !in db.plots then
      Err(NotFound)
    else if KeyOf(req) in db.cultivations then
      Err(Duplicate)
    else
      Ok(Reply(db.(cultivations := db.cultivations[KeyOf(req) := StatusName(req.status)]), req))
  }

  /** A second planting with the same triple is refused, whatever its status. */
  lemma SecondCultivationIsDuplicate(db: State, req: CultivationCreate, status: CultivationStatus)
    requires CreateCultivation(db, req).Ok?
    ensures CreateCultivation(CreateCultivation(db, req).value.state, req.(status := status)) == Err(Duplicate)
  {
  }

  /** Updates a cultivation's status. NotFound for an unknown triple; a
      supplied status replaces the stored one, an absent one leaves the row
      as it was; no other row changes. Answers with the row as stored. */
  function UpdateCultivation(db: State, key: CultivationKey, d: CultivationUpdate): (r: Result<Reply<CultivationOut>>)
    ensures key !in db.cultivations ==> r == Err(NotFound)
    ensures r.Ok? <==> key in db.cultivations
    ensures r.Ok? ==>
      var rows := r.value.state.cultivations;
      && rows.Keys == db.cultivations.Keys
      && (d.status.None? ==> rows[key] == db.cultivations[key])
      && (d.status.Some? ==> ParseStatus(rows[key]) == d.status)
      && (forall k :: k in db.cultivations && k != key ==> rows[k] == db.cultivations[k])
      && r.value.state == db.(cultivations := rows)
      && r.value.body == CultivationOut(key, rows[key])
    ensures r.Ok? && StatusesValid(db.cultivations) ==> StatusesValid(r.value.state.cultivations)
  {
    if key !in db.cultivations then
      Err(NotFound)
    else
      var status := if d.status.Some? then StatusName(d.status.value) else db.cultivations[key];
      var rows := db.cultivations[key := status];
      Ok(Reply(db.(cultivations := rows), CultivationOut(key, status)))
  }

  /** An update without a status is a no-op on the store. */
  lemma EmptyCultivationUpdateIsNoOp(db: State, key: CultivationKey)
    requires key in db.cultivations
    ensures UpdateCultivation(db, key, CultivationUpdate(None)).value.state == db
  {
  }

  /** The status field of an update body as the handler receives it: left
      out, sent as an explicit null, or sent as one of the literals. */
  datatype StatusPatch = Omitted | ExplicitNull | Given(status: CultivationStatus)

  /** The `status_cultivo` column as declared, which admits NULL. */
  type NullableStatuses = map<CultivationKey, Option<string>>

  /** Every row holds one of the four status literals, and none holds NULL. */
  ghost predicate NullableStatusesValid(rows: NullableStatuses) {
    forall k :: k in rows ==> rows[k].Some? && rows[k].value in CultivationStatuses
  }

  /** The status column as a nullable one. */
  function Lift(rows: map<CultivationKey, string>): NullableStatuses {
    map k | k in rows :: Some(rows[k])
  }

  /** The request's field as the handler receives it. */
  function PatchOf(d: CultivationUpdate): StatusPatch {
    if d.status.Some? then Given(d.status.value) else Omitted
  }

  /** The status update as written, on the column as declared: NotFound for
      an unknown triple; every field the body sets is written, so an explicit
      null stores NULL; no other row changes. */
  function UpdateCultivationAsWritten(rows: NullableStatuses, key: CultivationKey, patch: StatusPatch): (r: Result<NullableStatuses>)
    ensures key !in rows ==> r == Err(NotFound)
    ensures r.Ok? <==> key in rows
    ensures r.Ok? ==> r.value.Keys == rows.Keys
    ensures r.Ok? ==> forall k :: k in rows && k != key ==> r.value[k] == rows[k]
    ensures r.Ok? && patch.Omitted? ==> r.value[key] == rows[key]
    ensures r.Ok? && patch.ExplicitNull? ==> r.value[key] == None
    ensures r.Ok? && patch.Given? ==> r.value[key].Some? && ParseStatus(r.value[key].value) == Some(patch.status)
  {
    if key !in rows then
      Err(NotFound)
    else
      match patch
      case Omitted => Ok(rows)
      case ExplicitNull => Ok(rows[key := None])
      case Given(s) => Ok(rows[key := Some(StatusName(s))])
  }

  /** One valid planting and a body with an explicit null status: the handler
      as written accepts it and the planting's status becomes NULL. */
  lemma UpdateCultivationAsWrittenStoresNull()
    ensures var key := CultivationKey(1, 1, Date(2024, 3, 1));
            var rows: NullableStatuses := map[key := Some("Plantado")];
            var r := UpdateCultivationAsWritten(rows, key, ExplicitNull);
            NullableStatusesValid(rows) && r.Ok? && !NullableStatusesValid(r.value)
  {
  }

  /** Except for an explicit null, which the corrected update cannot receive,
      the handler as written and `UpdateCultivation` write the same column. */
  lemma UpdateCultivationAgreesWithAsWritten(db: State, key: CultivationKey, d: CultivationUpdate)
    ensures UpdateCultivation(db, key, d).Ok? <==> UpdateCultivationAsWritten(Lift(db.cultivations), key, PatchOf(d)).Ok?
    ensures UpdateCultivation(db, key, d).Ok? ==>
      Lift(UpdateCultivation(db, key, d).value.state.cultivations) ==
      UpdateCultivationAsWritten(Lift(db.cultivations), key, PatchOf(d)).value
  {
  }

  /** Removes a cultivation. NotFound for an unknown triple; otherwise removes
      exactly that row. */
  function RemoveCultivation(db: State, key: CultivationKey): (r: Result<Reply<()>>)
    ensures key !in db.cultivations ==> r == Err(NotFound)
    ensures r.Ok? <==> key in db.cultivations
    ensures r.Ok? ==>
      var rows := r.value.state.cultivations;
      && rows.Keys == db.cultivations.Keys - {key}
      && (forall k :: k in rows ==> rows[k] == db.cultivations[k])
      && r.value.state == db.(cultivations := rows)
  {
    if key !in db.cultivations then Err(NotFound)
    else Ok(Reply(db.(cultivations := db.cultivations - {key}), ()))
  }
}

=== FILE: harvests.dfy ===
/** Harvests, and the status propagation they trigger: recording or editing
    a harvest for a (plot, product) pair marks every cultivation of that pair
    as harvested, whatever its planting date and prior status. */
module Harvests {
  import opened Outcome
  import opened Models
  import opened Schemas
  import opened Store

  /** The cultivation belongs to this plot and product, on any date. */
  predicate SamePair(k: CultivationKey, plot: PlotId, product: ProductId) {
    k.plot == plot && k.product == product
  }

  /** The bulk update: no row appears or disappears, every row of the pair
      holds the harvested literal afterwards, and every other row keeps its
      status. */
  function MarkHarvested(rows: map<CultivationKey, string>, plot: PlotId, product: ProductId): (out: map<CultivationKey, string>)
    ensures out.Keys == rows.Keys
    ensures forall k :: k in rows && SamePair(k, plot, product) ==> out[k] == Harvested
    ensures forall k :: k in rows && !SamePair(k, plot, product) ==> out[k] == rows[k]
  {
    map k | k in rows :: if SamePair(k, plot, product) then Harvested else rows[k]
  }

  /** A row-by-row reference implementation of the bulk update, which the
      handlers issue as one UPDATE over every matching row; visiting the rows
      one at a time ends in the same table as the declarative description. */
  method MarkHarvestedRows(rows: map<CultivationKey, string>, plot: PlotId, product: ProductId)
    returns (out: map<CultivationKey, string>)
    ensures out == MarkHarvested(rows, plot, product)
  {
    out := rows;
    var pending := rows.Keys;
    while pending != {}
      invariant pending <= rows.Keys
      invariant out.Keys == rows.Keys
      invariant forall k :: k in pending ==> out[k] == rows[k]
      invariant forall k :: k in rows && k !in pending ==>
        out[k] == (if SamePair(k, plot, product) then Harvested else rows[k])
      decreases pending
    {
      var k :| k in pending;
      if SamePair(k, plot, product) {
        out := out[k := Harvested];
      }
      pending := pending - {k};
    }
  }

  /** Marking a pair twice is the same as marking it once. */
  lemma MarkHarvestedIdempotent(rows: map<CultivationKey, string>, plot: PlotId, product: ProductId)
    ensures MarkHarvested(MarkHarvested(rows, plot, product), plot, product) == MarkHarvested(rows, plot, product)
  {
  }

  /** Propagation writes only the harvested literal, which is a valid
      status, so it keeps every stored status inside the four literals. */
  lemma MarkHarvestedKeepsStatusesValid(rows: map<CultivationKey, string>, plot: PlotId, product: ProductId)
    requires StatusesValid(rows)
    ensures StatusesValid(MarkHarvested(rows, plot, product))
  {
  }

  /** Records a harvest. NotFound unless product and plot exist; otherwise
      adds one harvest under the next auto-increment id, marks every
      cultivation of the (plot, product) pair harvested, leaves every other
      cultivation and every other table alone, and answers with the new row. */
  function CreateHarvest(db: State, req: HarvestCreate): (r: Result<Reply<Harvest>>)
    ensures req.product !in db.products || req.plot !in db.plots ==> r == Err(NotFound)
    ensures r.Ok? <==> req.product in db.products && req.plot in db.plots
    ensures r.Ok? ==>
      var s := r.value.state;
      var h := r.value.body;
      && h.id == db.nextHarvestId && s.nextHarvestId == db.nextHarvestId + 1
      && h.plot == req.plot && h.product == req.product && h.date == req.date && h.kg == req.kg
      && s.harvests.Keys == db.harvests.Keys + {h.id}
      && s.harvests[h.id] == h
      && (forall id :: id in db.harvests && id != h.id ==> s.harvests[id] == db.harvests[id])
      && (HarvestIdsFresh(db) ==> |s.harvests| == |db.harvests| + 1)
      && s.cultivations.Keys == db.cultivations.Keys
      && (forall k :: k in db.cultivations && SamePair(k, req.plot, req.product) ==> s.cultivations[k] == Harvested)
      && (forall k :: k in db.cultivations && !SamePair(k, req.plot, req.product) ==> s.cultivations[k] == db.cultivations[k])
      && s == db.(harvests := s.harvests, cultivations := s.cultivations, nextHarvestId := s.nextHarvestId)
  {
    if req.product !in db.products || req.plot !in db.plots then
      Err(NotFound)
    else
      var h := Harvest(db.nextHarvestId, req.plot, req.product, req.date, req.kg);
      Ok(Reply(db.(harvests := db.harvests[h.id := h],
                   cultivations := MarkHarvested(db.cultivations, req.plot, req.product),
                   nextHarvestId := db.nextHarvestId + 1),
               h))
  }

  /** Edits a harvest. NotFound for an unknown id; the handler does not check
      that the new product and plot exist, so a dangling one is rejected by
      the foreign keys of `colheitas` at commit. Otherwise the row takes every
      field of the request and the cultivations of the NEW (plot, product)
      pair are marked harvested; those of the old pair are not reverted. */
  function UpdateHarvest(db: State, id: HarvestId, req: HarvestCreate): (r: Result<Reply<Harvest>>)
    ensures id !in db.harvests ==> r == Err(NotFound)
    ensures (id in db.harvests && (req.product !in db.products || req.plot !in db.plots)) ==>
      r == Err(ConstraintViolation)
    ensures r.Ok? <==> id in db.harvests && req.product in db.products && req.plot in db.plots
    ensures r.Ok? ==>
      var s := r.value.state;
      var h := r.value.body;
      && h.id == id
      && h.plot == req.plot && h.product == req.product && h.date == req.date && h.kg == req.kg
      && s.harvests.Keys == db.harvests.Keys
      && s.harvests[id] == h
      && (forall other :: other in db.harvests && other != id ==> s.harvests[other] == db.harvests[other])
      && s.cultivations.Keys == db.cultivations.Keys
      && (forall k :: k in db.cultivations && SamePair(k, req.plot, req.product) ==> s.cultivations[k] == Harvested)
      && (forall k :: k in db.cultivations && !SamePair(k, req.plot, req.product) ==> s.cultivations[k] == db.cultivations[k])
      && s == db.(harvests := s.harvests, cultivations := s.cultivations)
  {
    if id !in db.harvests then
      Err(NotFound)
    else
      var h := Harvest(id, req.plot, req.product, req.date, req.kg);
      if req.product !in db.products || req.plot !in db.plots then
        Err(ConstraintViolation)
      else
        Ok(Reply(db.(harvests := db.harvests[id := h],
                     cultivations := MarkHarvested(db.cultivations, req.plot, req.product)),
                 h))
  }

  /** Re-submitting a harvest edit changes nothing further. */
  lemma UpdateHarvestIdempotent(db: State, id: HarvestId, req: HarvestCreate)
    requires UpdateHarvest(db, id, req).Ok?
    ensures var s := UpdateHarvest(db, id, req).value.state;
            UpdateHarvest(s, id, req) == Ok(Reply(s, UpdateHarvest(db, id, req).value.body))
  {
    var s := UpdateHarvest(db, id, req).value.state;
    var h := UpdateHarvest(db, id, req).value.body;
    MarkHarvestedIdempotent(db.cultivations, req.plot, req.product);
    assert s.harvests[id := h] == s.harvests;
    assert s.(harvests := s.harvests[id := h],
              cultivations := MarkHarvested(s.cultivations, req.plot, req.product)) == s;
  }
}

=== FILE: integrity.dfy ===
/** The handlers as one transition relation over the store, and the proof
    that every accepted request keeps the store's integrity conditions. */
module Integrity {
  import opened Outcome
  import opened Models
  import opened Schemas
  import opened Store
  import Users
  import Participations
  import Cultivations
  import Harvests

  /** One mutating request to the API. */
  datatype Request =
    | CreateUserRequest(user: UserCreate, newId: UserId)
    | UpdateUserRequest(id: UserId, change: UserUpdate)
    | DeleteUserRequest(id: UserId)
    | CreateParticipationRequest(participation: ParticipationCreate)
    | RemoveParticipationRequest(member: UserId, event: EventId)
    | CreateCultivationRequest(cultivation: CultivationCreate)
    | UpdateCultivationRequest(key: CultivationKey, update: CultivationUpdate)
    | RemoveCultivationRequest(key: CultivationKey)
    | CreateHarvestRequest(harvest: HarvestCreate)
    | UpdateHarvestRequest(harvestId: HarvestId, edit: HarvestCreate)

  /** A generated UUID never collides with an existing user id. */
  predicate FreshIds(db: State, req: Request) {
    req.CreateUserRequest? ==> req.newId !in db.users
  }

  /** The store after a request, or the error the handler raised. */
  function Step(db: State, req: Request, hash: string -> string): Result<State>
    requires FreshIds(db, req)
  {
    match req
    case CreateUserRequest(u, newId) =>
      var reply :- Users.CreateUser(db, u, newId, hash); Ok(reply.state)
    case UpdateUserRequest(id, d) =>
      var reply :- Users.UpdateUser(db, id, d, hash); Ok(reply.state)
    case DeleteUserRequest(id) =>
      var reply :- Users.DeleteUser(db, id); Ok(reply.state)
    case CreateParticipationRequest(p) =>
      var reply :- Participations.CreateParticipation(db, p); Ok(reply.state)
    case RemoveParticipationRequest(u, e) =>
      var reply :- Participations.RemoveParticipation(db, u, e); Ok(reply.state)
    case CreateCultivationRequest(c) =>
      var reply :- Cultivations.CreateCultivation(db, c); Ok(reply.state)
    case UpdateCultivationRequest(k, d) =>
      var reply :- Cultivations.UpdateCultivation(db, k, d); Ok(reply.state)
    case RemoveCultivationRequest(k) =>
      var reply :- Cultivations.RemoveCultivation(db, k); Ok(reply.state)
    case CreateHarvestRequest(h) =>
      var reply :- Harvests.CreateHarvest(db, h); Ok(reply.state)
    case UpdateHarvestRequest(id, h) =>
      var reply :- Harvests.UpdateHarvest(db, id, h); Ok(reply.state)
  }

  /** Every stored cultivation status stays one of the four literals under
      every request, whatever else holds of the store. */
  lemma StepKeepsStatusesValid(db: State, req: Request, hash: string -> string)
    requires FreshIds(db, req)
    requires StatusesValid(db.cultivations)
    ensures Step(db, req, hash).Ok? ==> StatusesValid(Step(db, req, hash).value.cultivations)
  {
  }

  /** Every accepted request keeps keys, email uniqueness, statuses, foreign
      keys and the harvest counter consistent. */
  lemma StepPreservesValid(db: State, req: Request, hash: string -> string)
    requires FreshIds(db, req)
    requires Valid(db)
    ensures Step(db, req, hash).Ok? ==>
      Valid(Step(db, req, hash).value)
  {
    match req
    case CreateUserRequest(u, newId) => CreateUserPreservesValid(db, u, newId, hash);
    case UpdateUserRequest(id, d) => UpdateUserPreservesValid(db, id, d, hash);
    case DeleteUserRequest(id) => DeleteUserPreservesValid(db, id);
    case CreateParticipationRequest(p) => CreateParticipationPreservesValid(db, p);
    case RemoveParticipationRequest(u, e) => RemoveParticipationPreservesValid(db, u, e);
    case CreateCultivationRequest(c) => CreateCultivationPreservesValid(db, c);
    case UpdateCultivationRequest(k, d) => UpdateCultivationPreservesValid(db, k, d);
    case RemoveCultivationRequest(k) => RemoveCultivationPreservesValid(db, k);
    case CreateHarvestRequest(h) => CreateHarvestPreservesValid(db, h);
    case UpdateHarvestRequest(id, h) => UpdateHarvestPreservesValid(db, id, h);
  }

  lemma CreateUserPreservesValid(db: State, u: UserCreate, newId: UserId, hash: string -> string)
    requires Valid(db) && newId !in db.users
    ensures Users.CreateUser(db, u, newId, hash).Ok? ==>
      Valid(Users.CreateUser(db, u, newId, hash).value.state)
  {
    if Users.CreateUser(db, u, newId, hash).Ok? {
      var row := User(newId, u.group, u.name, u.email, u.phone, hash(u.password));
      assert Users.CreateUser(db, u, newId, hash).value.state == db.(users := db.users[newId := row]);
      AddUserPreservesValid(db, row);
    }
  }

  /** Inserting a user whose id and email are new and whose group exists. */
  lemma AddUserPreservesValid(db: State, row: User)
    requires Valid(db)
    requires row.id !in db.users && !HasEmail(db.users, row.email) && row.group in db.groups
    ensures Valid(db.(users := db.users[row.id := row]))
  {
  }

  lemma UpdateUserPreservesValid(db: State, id: UserId, d: UserUpdate, hash: string -> string)
    requires Valid(db)
    ensures Users.UpdateUser(db, id, d, hash).Ok? ==>
      Valid(Users.UpdateUser(db, id, d, hash).value.state)
  {
  }

  lemma DeleteUserPreservesValid(db: State, id: UserId)
    requires Valid(db)
    ensures Users.DeleteUser(db, id).Ok? ==>
      Valid(Users.DeleteUser(db, id).value.state)
  {
  }

  lemma CreateParticipationPreservesValid(db: State, p: ParticipationCreate)
    requires Valid(db)
    ensures Participations.CreateParticipation(db, p).Ok? ==>
      Valid(Participations.CreateParticipation(db, p).value.state)
  {
  }

  lemma RemoveParticipationPreservesValid(db: State, u: UserId, e: EventId)
    requires Valid(db)
    ensures Participations.RemoveParticipation(db, u, e).Ok? ==>
      Valid(Participations.RemoveParticipation(db, u, e).value.state)
  {
  }

  lemma CreateCultivationPreservesValid(db: State, c: CultivationCreate)
    requires Valid(db)
    ensures Cultivations.CreateCultivation(db, c).Ok? ==>
      Valid(Cultivations.CreateCultivation(db, c).value.state)
  {
  }

  lemma UpdateCultivationPreservesValid(db: State, k: CultivationKey, d: CultivationUpdate)
    requires Valid(db)
    ensures Cultivations.UpdateCultivation(db, k, d).Ok? ==>
      Valid(Cultivations.UpdateCultivation(db, k, d).value.state)
  {
  }

  lemma RemoveCultivationPreservesValid(db: State, k: CultivationKey)
    requires Valid(db)
    ensures Cultivations.RemoveCultivation(db, k).Ok? ==>
      Valid(Cultivations.RemoveCultivation(db, k).value.state)
  {
  }

  lemma CreateHarvestPreservesValid(db: State, h: HarvestCreate)
    requires Valid(db)
    ensures Harvests.CreateHarvest(db, h).Ok? ==>
      Valid(Harvests.CreateHarvest(db, h).value.state)
  {
    if Harvests.CreateHarvest(db, h).Ok? {
      var s := Harvests.CreateHarvest(db, h).value.state;
      Harvests.MarkHarvestedKeepsStatusesValid(db.cultivations, h.plot, h.product);
      assert s.cultivations == Harvests.MarkHarvested(db.cultivations, h.plot, h.product);
      assert s.cultivations.Keys == db.cultivations.Keys;
      assert KeysMatchIds(s);
      assert ReferencesExist(s);
      assert HarvestIdsFresh(s);
    }
  }

  lemma UpdateHarvestPreservesValid(db: State, id: HarvestId, h: HarvestCreate)
    requires Valid(db)
    ensures Harvests.UpdateHarvest(db, id, h).Ok? ==>
      Valid(Harvests.UpdateHarvest(db, id, h).value.state)
  {
  }
}

=== FILE: models.dfy ===
/** The rows of the relational store: one datatype per table, with the
    closed enumerations of the `Enum` columns as datatypes of their own. */
module Models {
  import opened Outcome

  type UserId = string      // CHAR(36), a UUID rendered as text
  type GroupId = int
  type ProductId = int
  type PlotId = int
  type EventId = int
  type HarvestId = int

  /** A calendar date; only its identity matters to the model. */
  datatype Date = Date(year: int, month: int, day: int)

  datatype Group = Group(id: GroupId, name: string, description: Option<string>)

  /** A user row. The stored password is the hash of what the user chose,
      never the plain text; the column is not nullable, hence not an Option. */
  datatype User = User(
    id: UserId,
    group: GroupId,
    name: string,
    email: string,
    phone: Option<string>,
    password: string)

  /** The `tipo` column of `produto`. */
  datatype ProductKind = Verdura | Legume | Fruta | Hortalica

  datatype Product = Product(id: ProductId, name: string, kind: ProductKind, season: Option<string>)

  /** The `status` column of `parcela`. */
  datatype PlotStatus = Livre | Cultivando | EmRepouso

  /** `tamanho` is a floating-point column; no arithmetic is done on it. */
  datatype Plot = Plot(id: PlotId, size: real, location: string, status: PlotStatus)

  datatype Event = Event(
    id: EventId,
    name: string,
    date: Date,
    description: Option<string>,
    location: Option<string>)

  /** The `papel` column of `ParticipacaoEvento`. */
  datatype Role = Participante | Organizador | Palestrante

  /** The composite primary key of `ParticipacaoEvento`. */
  datatype ParticipationKey = ParticipationKey(user: UserId, event: EventId)

  /** The composite primary key of `cultivos`. */
  datatype CultivationKey = CultivationKey(product: ProductId, plot: PlotId, planted: Date)

  /** A harvest row; `kg` is a floating-point column, never computed with. */
  datatype Harvest = Harvest(id: HarvestId, plot: PlotId, product: ProductId, date: Date, kg: real)

  const ProductKindNames: set<string> := {"Verdura", "Legume", "Fruta", "Hortaliça"}
  const PlotStatusNames: set<string> := {"Livre", "Cultivando", "Em Repouso"}
  const RoleNames: set<string> := {"Participante", "Organizador", "Palestrante"}

  /** The literal the database stores for a product kind. */
  function KindName(k: ProductKind): string {
    match k
    case Verdura => "Verdura"
    case Legume => "Legume"
    case Fruta => "Fruta"
    case Hortalica => "Hortaliça"
  }

  /** The four kind literals, compared exactly. The column's collation may
      also admit other spellings of them; those are not modelled. */
  function ParseKind(s: string): (r: Option<ProductKind>)
    ensures r.Some? <==> s in ProductKindNames
    ensures r.Some? ==> KindName(r.value) == s
  {
    if s == "Verdura" then Some(Verdura)
    else if s == "Legume" then Some(Legume)
    else if s == "Fruta" then Some(Fruta)
    else if s == "Hortaliça" then Some(Hortalica)
    else None
  }

  function PlotStatusName(p: PlotStatus): string {
    match p
    case Livre => "Livre"
    case Cultivando => "Cultivando"
    case EmRepouso => "Em Repouso"
  }

  /** The three plot-status literals, compared exactly. The column's
      collation may also admit other spellings of them; those are not
      modelled. */
  function ParsePlotStatus(s: string): (r: Option<PlotStatus>)
    ensures r.Some? <==> s in PlotStatusNames
    ensures r.Some? ==> PlotStatusName(r.value) == s
  {
    if s == "Livre" then Some(Livre)
    else if s == "Cultivando" then Some(Cultivando)
    else if s == "Em Repouso" then Some(EmRepouso)
    else None
  }

  function RoleName(r: Role): string {
    match r
    case Participante => "Participante"
    case Organizador => "Organizador"
    case Palestrante => "Palestrante"
  }

  /** The column, and the request literal, accept exactly the three roles. */
  function ParseRole(s: string): (r: Option<Role>)
    ensures r.Some? <==> s in RoleNames
    ensures r.Some? ==> RoleName(r.value) == s
  {
    if s == "Participante" then Some(Participante)
    else if s == "Organizador" then Some(Organizador)
    else if s == "Palestrante" then Some(Palestrante)
    else None
  }

  /** Every enumeration value survives being written as its literal and read back. */
  lemma EnumerationsRoundTrip(k: ProductKind, p: PlotStatus, r: Role)
    ensures ParseKind(KindName(k)) == Some(k)
    ensures ParsePlotStatus(PlotStatusName(p)) == Some(p)
    ensures ParseRole(RoleName(r)) == Some(r)
  {
  }

  /** A new plot row: a status left out of the insert takes the column default. */
  function NewPlot(id: PlotId, size: real, location: string, status: Option<PlotStatus>): (p: Plot)
    ensures p.id == id && p.size == size && p.location == location
    ensures status.None? ==> p.status == Livre
    ensures status.Some? ==> p.status == status.value
  {
    Plot(id, size, location, status.GetOr(Livre))
  }

  /** Leaving the status out of a plot insert is the same as sending "Livre",
      and a status sent as one of the literals is stored as that literal. */
  lemma NewPlotStatusLiteral(id: PlotId, size: real, location: string, s: string)
    ensures NewPlot(id, size, location, None) == NewPlot(id, size, location, ParsePlotStatus("Livre"))
    ensures ParsePlotStatus(s).Some? ==>
      PlotStatusName(NewPlot(id, size, location, ParsePlotStatus(s)).status) == s
  {
  }
}

=== FILE: outcome.dfy ===
/** Failure-carrying results of the garden backend's handlers.

    Every handler either answers with a value or raises one HTTP error;
    the error kinds are the constructors of `Error`. */
module Outcome {

  /** A value that may be missing: a nullable column, an optional request field. */
  datatype Option<+T> = None | Some(value: T) {

    /** The carried value, or `default` when missing. */
    function GetOr(default: T): T {
      match this
      case Some(v) => v
      case None => default
    }
  }

  /** The failures a handler raises. */
  datatype Error =
    | NotFound             // 404: a row named by the request is missing
    | Duplicate            // 400: an email or a composite key is already taken
    | InvalidCredentials   // 400: unknown user or wrong password at login
    | Unauthorized         // 401: the bearer token yields no subject
    | Forbidden            // 403: the caller's group is not allowed
    | ConstraintViolation  // the database rejects a dangling foreign key at commit

  /** The HTTP status each failure surfaces as; a rejected commit is an
      unhandled exception, hence a server error. */
  function StatusCode(e: Error): int {
    match e
    case NotFound => 404
    case Duplicate => 400
    case InvalidCredentials => 400
    case Unauthorized => 401
    case Forbidden => 403
    case ConstraintViolation => 500
  }

  /** Either the handler's value or the error it raised. An `Err` carries no
      store, so a failed request never changes anything. */
  datatype Result<+T> = Ok(value: T) | Err(error: Error) {

    predicate IsFailure() {
      Err?
    }

    function PropagateFailure<U>(): Result<U>
      requires Err?
    {
      Err(error)
    }

    function Extract(): T
      requires Ok?
    {
      value
    }
  }
}

=== FILE: participations.dfy ===
/** Event participation: the many-to-many link between users and events,
    one role per (user, event) pair. */
module Participations {
  import opened Outcome
  import opened Models
  import opened Schemas
  import opened Store

  /** Enrols a user in an event. NotFound unless both the user and the event
      exist; Duplicate when the pair already has a role; otherwise exactly
      that pair is added with the requested role, and the request is echoed. */
  function CreateParticipation(db: State, req: ParticipationCreate): (r: Result<Reply<ParticipationCreate>>)
    ensures req.user !in db.users || req.event !in db.events ==> r == Err(NotFound)
    ensures (req.user in db.users && req.event in db.events &&
             ParticipationKey(req.user, req.event) in db.participations) ==> r == Err(Duplicate)
    ensures r.Ok? <==>
      req.user in db.users && req.event in db.events &&
      ParticipationKey(req.user, req.event) !in db.participations
    ensures r.Ok? ==>
      var parts := r.value.state.participations;
      && parts.Keys == db.participations.Keys + {ParticipationKey(req.user, req.event)}
      && parts[ParticipationKey(req.user, req.event)] == req.role
      && (forall k :: k in db.participations ==> parts[k] == db.participations[k])
      && r.value.state == db.(participations := parts)
      && r.value.body == req
  {
    var key := ParticipationKey(req.user, req.event);
    if req.user !in db.users || req.event !in db.events then
      Err(NotFound)
    else if key in db.participations then
      Err(Duplicate)
    else
      Ok(Reply(db.(participations := db.participations[key := req.role]), req))
  }

  /** A second enrolment of the same pair is refused, whatever its role. */
  lemma SecondParticipationIsDuplicate(db: State, req: ParticipationCreate, role: Role)
    requires CreateParticipation(db, req).Ok?
    ensures CreateParticipation(CreateParticipation(db, req).value.state, req.(role := role)) == Err(Duplicate)
  {
  }

  /** Removes a participation. NotFound when the pair has none; otherwise
      removes exactly that pair. */
  function RemoveParticipation(db: State, user: UserId, event: EventId): (r: Result<Reply<()>>)
    ensures ParticipationKey(user, event) !in db.participations ==> r == Err(NotFound)
    ensures r.Ok? <==> ParticipationKey(user, event) in db.participations
    ensures r.Ok? ==>
      var parts := r.value.state.participations;
      && parts.Keys == db.participations.Keys - {ParticipationKey(user, event)}
      && (forall k :: k in parts ==> parts[k] == db.participations[k])
      && r.value.state == db.(participations := parts)
  {
    var key := ParticipationKey(user, event);
    if key !in db.participations then Err(NotFound)
    else Ok(Reply(db.(participations := db.participations - {key}), ()))
  }
}

=== FILE: schemas.dfy ===
/** Request and response shapes of the handlers. Optional fields of a
    partial update are `Option`s: `None` means the client left the field out. */
module Schemas {
  import opened Outcome
  import opened Models

  /** The status literal a cultivation request may carry. */
  datatype CultivationStatus = Plantado | Crescendo | ProntoParaColheita | Colhido

  const CultivationStatuses: set<string> := {"Plantado", "Crescendo", "ProntoParaColheita", "Colhido"}

  /** The status the harvest handlers force onto matching cultivations. */
  const Harvested: string := "Colhido"

  /** The string stored in the `status_cultivo` column for a request status:
      always one of the four literals, and the harvested literal exactly for
      `Colhido`. */
  function StatusName(s: CultivationStatus): (name: string)
    ensures name in CultivationStatuses
    ensures name == Harvested <==> s == Colhido
  {
    match s
    case Plantado => "Plantado"
    case Crescendo => "Crescendo"
    case ProntoParaColheita => "ProntoParaColheita"
    case Colhido => "Colhido"
  }

  /** Request validation of the status literal: accepts exactly the four
      literals, and is the inverse of `StatusName`. */
  function ParseStatus(s: string): (r: Option<CultivationStatus>)
    ensures r.Some? <==> s in CultivationStatuses
    ensures r.Some? ==> StatusName(r.value) == s
  {
    if s == "Plantado" then Some(Plantado)
    else if s == "Crescendo" then Some(Crescendo)
    else if s == "ProntoParaColheita" then Some(ProntoParaColheita)
    else if s == "Colhido" then Some(Colhido)
    else None
  }

  lemma StatusRoundTrip(s: CultivationStatus)
    ensures ParseStatus(StatusName(s)) == Some(s)
  {
  }

  /** The harvested literal is itself a valid request status. */
  lemma HarvestedIsAStatus()
    ensures Harvested in CultivationStatuses
    ensures ParseStatus(Harvested) == Some(Colhido)
  {
  }

  datatype UserCreate = UserCreate(
    name: string,
    email: string,
    phone: Option<string>,
    group: GroupId,
    password: string)

  /** Every field optional: only the supplied ones are written. */
  datatype UserUpdate = UserUpdate(
    name: Option<string>,
    email: Option<string>,
    phone: Option<string>,
    group: Option<GroupId>,
    password: Option<string>)

  const NoChanges: UserUpdate := UserUpdate(None, None, None, None, None)

  /** What the API returns for a user: every column except the password. */
  datatype UserOut = UserOut(
    id: UserId,
    group: GroupId,
    name: string,
    email: string,
    phone: Option<string>)

  /** The public view of a user row: it keeps every other column as stored. */
  function ToUserOut(u: User): UserOut {
    UserOut(u.id, u.group, u.name, u.email, u.phone)
  }

  /** The public view does not depend on the stored password, so no response
      built from it can reveal the password. */
  lemma UserOutHidesPassword(u: User, other: string)
    ensures ToUserOut(u.(password := other)) == ToUserOut(u)
  {
  }

  datatype ParticipationCreate = ParticipationCreate(user: UserId, event: EventId, role: Role)

  datatype CultivationCreate = CultivationCreate(
    product: ProductId,
    plot: PlotId,
    planted: Date,
    status: CultivationStatus)

  datatype CultivationUpdate = CultivationUpdate(status: Option<CultivationStatus>)

  /** A cultivation as returned after an update: its key and stored status. */
  datatype CultivationOut = CultivationOut(key: CultivationKey, status: string)

  datatype HarvestCreate = HarvestCreate(plot: PlotId, product: ProductId, date: Date, kg: real)

  /** The composite key a planting request names. */
  function KeyOf(c: CultivationCreate): CultivationKey {
    CultivationKey(c.product, c.plot, c.planted)
  }
}

=== FILE: store.dfy ===
/** The whole relational store as one immutable value, and the integrity
    conditions the handlers are meant to keep. */
module Store {
  import opened Outcome
  import opened Models
  import Schemas

  /** One map per table, keyed by the table's primary key. Cultivation
      statuses are kept as the strings the `String(50)` column holds. */
  datatype State = State(
    groups: map<GroupId, Group>,
    users: map<UserId, User>,
    events: map<EventId, Event>,
    products: map<ProductId, Product>,
    plots: map<PlotId, Plot>,
    participations: map<ParticipationKey, Role>,
    cultivations: map<CultivationKey, string>,
    harvests: map<HarvestId, Harvest>,
    nextHarvestId: HarvestId)

  /** A handler's answer: the store after the request and the response body. */
  datatype Reply<+T> = Reply(state: State, body: T)

  const Empty: State := State(map[], map[], map[], map[], map[], map[], map[], map[], 1)

  /** Some user row holds this email. */
  predicate HasEmail(users: map<UserId, User>, email: string) {
    exists id :: id in users && users[id].email == email
  }

  /** Some participation row points at this user. */
  predicate HasParticipation(participations: map<ParticipationKey, Role>, user: UserId) {
    exists k :: k in participations && k.user == user
  }

  /** The first user row with this email, as the ORM's `.first()` returns it.
      Row order is unspecified, so the model picks one matching row. */
  ghost function FindByEmail(users: map<UserId, User>, email: string): (r: Option<User>)
    ensures r.None? <==> !HasEmail(users, email)
    ensures r.Some? ==> r.value in users.Values && r.value.email == email
  {
    if HasEmail(users, email) then
      var id :| id in users && users[id].email == email;
      Some(users[id])
    else
      None
  }

  /** Each row sits under its own primary key. */
  ghost predicate KeysMatchIds(db: State) {
    && (forall g :: g in db.groups ==> db.groups[g].id == g)
    && (forall u :: u in db.users ==> db.users[u].id == u)
    && (forall e :: e in db.events ==> db.events[e].id == e)
    && (forall p :: p in db.products ==> db.products[p].id == p)
    && (forall p :: p in db.plots ==> db.plots[p].id == p)
    && (forall h :: h in db.harvests ==> db.harvests[h].id == h)
  }

  /** No two user rows share an email. */
  ghost predicate UniqueEmails(users: map<UserId, User>) {
    forall a, b :: a in users && b in users && users[a].email == users[b].email ==> a == b
  }

  /** Every stored cultivation status is one of the four request literals. */
  ghost predicate StatusesValid(cultivations: map<CultivationKey, string>) {
    forall k :: k in cultivations ==> cultivations[k] in Schemas.CultivationStatuses
  }

  /** Every foreign key points at an existing row. */
  ghost predicate ReferencesExist(db: State) {
    && (forall u :: u in db.users ==> db.users[u].group in db.groups)
    && (forall k :: k in db.participations ==> k.user in db.users && k.event in db.events)
    && (forall k :: k in db.cultivations ==> k.product in db.products && k.plot in db.plots)
    && (forall h :: h in db.harvests ==>
          db.harvests[h].product in db.products && db.harvests[h].plot in db.plots)
  }

  /** The auto-increment counter is past every harvest id in use. */
  ghost predicate HarvestIdsFresh(db: State) {
    forall h :: h in db.harvests ==> h < db.nextHarvestId
  }

  ghost predicate Valid(db: State) {
    && KeysMatchIds(db)
    && UniqueEmails(db.users)
    && StatusesValid(db.cultivations)
    && ReferencesExist(db)
    && HarvestIdsFresh(db)
  }

  lemma EmptyIsValid()
    ensures Valid(Empty)
  {
  }
}

=== FILE: users.dfy ===
/** The user handlers: create, partial update and delete. */
module Users {
  import opened Outcome
  import opened Models
  import opened Schemas
  import opened Store

  /** Creates a user. `newId` is the freshly generated UUID and `hash` the
      salted password hash. Fails with Duplicate when the email is taken and
      with ConstraintViolation when the group does not exist (the foreign key
      on `id_grupo`); otherwise adds exactly one user, under `newId`, whose
      stored password is the hash of the chosen one, and answers with its
      public view. */
  function CreateUser(db: State, req: UserCreate, newId: UserId, hash: string -> string): (r: Result<Reply<UserOut>>)
    requires newId !in db.users
    ensures HasEmail(db.users, req.email) ==> r == Err(Duplicate)
    ensures !HasEmail(db.users, req.email) && req.group !in db.groups ==> r == Err(ConstraintViolation)
    ensures r.Ok? <==> !HasEmail(db.users, req.email) && req.group in db.groups
    ensures r.Ok? ==>
      var users' := r.value.state.users;
      && users'.Keys == db.users.Keys + {newId}
      && |users'| == |db.users| + 1
      && (forall id :: id in db.users ==> users'[id] == db.users[id])
      && users'[newId].id == newId
      && users'[newId].password == hash(req.password)
      && users'[newId].email == req.email && users'[newId].name == req.name
      && users'[newId].phone == req.phone && users'[newId].group == req.group
      && r.value.state == db.(users := users')
      && r.value.body.id == newId && r.value.body.email == req.email
  {
    if HasEmail(db.users, req.email) then
      Err(Duplicate)
    else if req.group !in db.groups then
      Err(ConstraintViolation)
    else
      var u := User(newId, req.group, req.name, req.email, req.phone, hash(req.password));
      Ok(Reply(db.(users := db.users[newId := u]), ToUserOut(u)))
  }

  /** Writes the supplied fields of a partial update onto a user row; the
      password, when supplied, is stored hashed. */
  function ApplyUserUpdate(u: User, d: UserUpdate, hash: string -> string): (v: User)
    ensures v.id == u.id
    ensures d.name.None? ==> v.name == u.name
    ensures d.name.Some? ==> v.name == d.name.value
    ensures d.email.None? ==> v.email == u.email
    ensures d.email.Some? ==> v.email == d.email.value
    ensures d.phone.None? ==> v.phone == u.phone
    ensures d.phone.Some? ==> v.phone == d.phone
    ensures d.group.None? ==> v.group == u.group
    ensures d.group.Some? ==> v.group == d.group.value
    ensures d.password.None? ==> v.password == u.password
    ensures d.password.Some? ==> v.password == hash(d.password.value)
  {
    User(
      u.id,
      d.group.GetOr(u.group),
      d.name.GetOr(u.name),
      d.email.GetOr(u.email),
      if d.phone.Some? then d.phone else u.phone,
      if d.password.Some? then hash(d.password.value) else u.password)
  }

  /** An update that supplies no field leaves the row as it was. */
  lemma EmptyUpdateIsNoOp(u: User, hash: string -> string)
    ensures ApplyUserUpdate(u, NoChanges, hash) == u
  {
  }

  /** Two updates that supply disjoint fields commute. */
  lemma DisjointUpdatesCommute(u: User, d: UserUpdate, e: UserUpdate, hash: string -> string)
    requires d.name.None? || e.name.None?
    requires d.email.None? || e.email.None?
    requires d.phone.None? || e.phone.None?
    requires d.group.None? || e.group.None?
    requires d.password.None? || e.password.None?
    ensures ApplyUserUpdate(ApplyUserUpdate(u, d, hash), e, hash) ==
            ApplyUserUpdate(ApplyUserUpdate(u, e, hash), d, hash)
  {
  }

  /** The update handler as written: NotFound for an unknown id,
      ConstraintViolation for a supplied group that does not exist (the
      foreign key on `id_grupo`); the new email is not checked against the
      other users. */
  function UpdateUserAsWritten(db: State, id: UserId, d: UserUpdate, hash: string -> string): (r: Result<Reply<UserOut>>)
    ensures id !in db.users ==> r == Err(NotFound)
    ensures id in db.users && d.group.Some? && d.group.value !in db.groups ==> r == Err(ConstraintViolation)
    ensures r.Ok? <==> id in db.users && !(d.group.Some? && d.group.value !in db.groups)
    ensures r.Ok? ==>
      && r.value.state == db.(users := r.value.state.users)
      && r.value.state.users.Keys == db.users.Keys
      && r.value.state.users[id] == ApplyUserUpdate(db.users[id], d, hash)
      && (forall other :: other in db.users && other != id ==> r.value.state.users[other] == db.users[other])
  {
    if id !in db.users then
      Err(NotFound)
    else
      var u := ApplyUserUpdate(db.users[id], d, hash);
      if d.group.Some? && d.group.value !in db.groups then Err(ConstraintViolation)
      else Ok(Reply(db.(users := db.users[id := u]), ToUserOut(u)))
  }

  /** Two users and a request that moves the second onto the first's email:
      the handler as written accepts it, and the emails stop being unique. */
  lemma UpdateUserAsWrittenDuplicatesEmail(hash: string -> string)
    ensures var db := Empty.(
              groups := map[1 := Group(1, "g", None)],
              users := map["a" := User("a", 1, "Ana", "ana@x.com", None, "h1"),
                           "b" := User("b", 1, "Bia", "bia@x.com", None, "h2")]);
            var r := UpdateUserAsWritten(db, "b", NoChanges.(email := Some("ana@x.com")), hash);
            UniqueEmails(db.users) && r.Ok? && !UniqueEmails(r.value.state.users)
  {
    var db := Empty.(
      groups := map[1 := Group(1, "g", None)],
      users := map["a" := User("a", 1, "Ana", "ana@x.com", None, "h1"),
                   "b" := User("b", 1, "Bia", "bia@x.com", None, "h2")]);
    var r := UpdateUserAsWritten(db, "b", NoChanges.(email := Some("ana@x.com")), hash);
    assert "a" != "b";
    assert r.value.state.users["a"].email == r.value.state.users["b"].email;
  }

  /** Some other user (not `id`) holds this email. */
  predicate EmailTakenByOther(users: map<UserId, User>, id: UserId, email: string) {
    exists other :: other in users && other != id && users[other].email == email
  }

  /** The update handler with the email check the create handler has:
      NotFound for an unknown id, Duplicate when the new email belongs to
      another user, ConstraintViolation for an unknown group; otherwise only
      that user's supplied fields change. */
  function UpdateUser(db: State, id: UserId, d: UserUpdate, hash: string -> string): (r: Result<Reply<UserOut>>)
    ensures id !in db.users ==> r == Err(NotFound)
    ensures id in db.users && d.email.Some? && EmailTakenByOther(db.users, id, d.email.value) ==> r == Err(Duplicate)
    ensures (id in db.users && !(d.email.Some? && EmailTakenByOther(db.users, id, d.email.value)) &&
             d.group.Some? && d.group.value !in db.groups) ==> r == Err(ConstraintViolation)
    ensures r.Ok? <==>
      && id in db.users
      && !(d.email.Some? && EmailTakenByOther(db.users, id, d.email.value))
      && !(d.group.Some? && d.group.value !in db.groups)
    ensures r.Ok? ==>
      && r.value.state == db.(users := r.value.state.users)
      && r.value.state.users.Keys == db.users.Keys
      && r.value.state.users[id] == ApplyUserUpdate(db.users[id], d, hash)
      && (forall other :: other in db.users && other != id ==> r.value.state.users[other] == db.users[other])
      && r.value.body == ToUserOut(r.value.state.users[id])
    ensures r.Ok? && UniqueEmails(db.users) ==> UniqueEmails(r.value.state.users)
  {
    if id !in db.users then
      Err(NotFound)
    else if d.email.Some? && EmailTakenByOther(db.users, id, d.email.value) then
      Err(Duplicate)
    else
      UpdateUserAsWritten(db, id, d, hash)
  }

  /** Deletes a user. NotFound for an unknown id; ConstraintViolation while a
      participation still points at the user (the foreign key of
      `ParticipacaoEvento`); otherwise removes exactly that user. */
  function DeleteUser(db: State, id: UserId): (r: Result<Reply<()>>)
    ensures id !in db.users ==> r == Err(NotFound)
    ensures id in db.users && HasParticipation(db.participations, id) ==> r == Err(ConstraintViolation)
    ensures r.Ok? <==> id in db.users && !HasParticipation(db.participations, id)
    ensures r.Ok? ==>
      && r.value.state == db.(users := r.value.state.users)
      && r.value.state.users.Keys == db.users.Keys - {id}
      && (forall other :: other in r.value.state.users ==> r.value.state.users[other] == db.users[other])
  {
    if id !in db.users then
      Err(NotFound)
    else if HasParticipation(db.participations, id) then
      Err(ConstraintViolation)
    else
      Ok(Reply(db.(users := db.users - {id}), ()))
  }
}
